=== FILE: README.md ===
# Room rental marketplace: catalogue, accounts and access control

This project models the parts of the room rental marketplace that carry
rules of their own, and proves properties of them in Dafny.

- **The client's room catalogue and account store** (`room-rental-app/src/App.tsx`).
  The application component keeps three pieces of state: the room list, the
  registered users and the logged-in user. The model is the class
  `Catalogue.RoomRentalApp` with those three fields. Its methods are posting a
  room (`handleAddRoom`), registering (`handleRegister`), logging in
  (`handleLogin`) and logging out (`handleLogout`). The search filter of the
  "All Rooms" tab and the owner filter of the "My Rooms" tab are pure
  functions over the list.
- **The server's access decisions** (`room-rental-app/server/index.ts`).
  This covers token extraction from the Authorization header, the `auth`
  middleware, the `requireRole` gate, and the guards each endpoint is mounted
  behind. It also covers the socket handshake middleware, the connection
  handler's user room, `chat:join`, and the message broadcast for
  `chat:message`, where the server sets `from` and `ts`.

Modules:

- `Optional` (optional.dfy) is the `Option` type.
- `Sequences` (sequences.dfy) holds `filter` (`Keep`) and `find`
  (`FindFirst`, which gives the index of the element `find` returns).
- `Text` (text.dfy) holds ASCII `toLowerCase`, `includes`, `split` and
  `join`.
- `Catalogue` (catalogue.dfy) models App.tsx.
- `Access` (access.dfy) covers HTTP authentication and roles.
- `Chat` (chat.dfy) covers the socket handshake and chat messages.

Inputs the code takes from outside are parameters of the model:

- `jwt.verify` is a function `Verifier` from token and secret to the decoded
  claims, or `None` where the library throws.
- `Date.now()` is an integer parameter `now`.
- `process.env.JWT_SECRET` is an optional string. `Access.JwtSecret` turns
  it into the key the request and socket checks use, and an unset or empty
  variable gives the fixed key "dev".

What the server says of itself is short. The comment at `server/index.ts`
lines 32-37 describes the flow: create a booking and a manual-capture
payment, have the client authorise it, then have the renter capture it. Line
55 is a TODO to "lookup booking in DB, get paymentIntentId, check permission".
A booking design with stored records, ownership checks and amount validation
goes beyond that comment. The code does not implement it:

- The code has no booking record and no booking state machine. Creating,
  confirming and storing bookings exist only as TODO comments
  (`server/index.ts` lines 41, 55, 59 and 69), so none of that is modelled.
- The verify endpoint checks the caller's role ("renter" or "admin") and
  nothing else. The permission check of line 55 is not written, so the
  endpoint's guards do not check that the caller owns the listing, and they do
  not look at the booking id or the payment id. The handler then captures
  whichever payment intent the request body names (lines 56-58) and notifies
  `booking_<id>` for the id in the path (line 60). So any renter or admin can
  capture any payment intent they can name. `Access.VerifyBookingGate`
  and `Access.VerifyGateDependsOnlyOnRole` state the gate's part of this
  behaviour as the code has it. The capture and the notification are not
  modelled.
- `POST /api/bookings` checks only that the caller is authenticated. It does
  not validate the amount.
- `chat:join` lets any authenticated socket join any room it names. That
  includes other users' `user_<id>` rooms and any booking room.
  `Chat.Connection.Join` models this as it is.

## Model

| member | source | states |
|---|---|---|
| `Sequences.Keep` | room-rental-app/src/App.tsx:72-80 | `filter`: the result is no longer than the input, and each of its elements is in the input and satisfies the predicate |
| `Sequences.KeepComplete` | room-rental-app/src/App.tsx:72-80 | every input element that satisfies the predicate is in the filtered result |
| `Sequences.KeepMembership` | room-rental-app/src/App.tsx:72-80 | an element is in the filtered result exactly when it is in the input and satisfies the predicate |
| `Sequences.KeepIsSubsequence` | room-rental-app/src/App.tsx:72-80 | the filtered result is a subsequence of the input: relative order is kept and nothing is added |
| `Sequences.KeepAll` | room-rental-app/src/App.tsx:72-80 | a predicate that every element satisfies gives back the input unchanged |
| `Sequences.KeepPrepend` | room-rental-app/src/App.tsx:231 | filtering `[x] + s` gives `x` (if it passes) followed by the filtered `s` |
| `Sequences.FindFirst` | room-rental-app/src/App.tsx:119 | `find`: the index found holds a matching element and no earlier element matches; no index is found exactly when nothing matches |
| `Text.LowerChar` | room-rental-app/src/App.tsx:75 | the lower-cased character is never an ASCII capital; it is either the input or the input's capital shifted to lower case |
| `Text.Lower` | room-rental-app/src/App.tsx:75 | `toLowerCase` keeps the length and leaves no ASCII capital letter |
| `Text.LowerSlice` | room-rental-app/src/App.tsx:75 | lower-casing commutes with slicing |
| `Text.Contains` | room-rental-app/src/App.tsx:75 | `includes` holds exactly when the query occurs as a contiguous block at some position |
| `Text.ContainsLower` | room-rental-app/src/App.tsx:75 | a contained query stays contained after both sides are lower-cased |
| `Text.Split` | room-rental-app/server/index.ts:18 | `split(" ")` gives at least one part, no part holds the separator, and joining the parts with the separator gives back the input |
| `Text.SplitWord` | room-rental-app/server/index.ts:18 | a string without the separator splits into itself alone |
| `Text.SplitAfterWord` | room-rental-app/server/index.ts:18 | splitting `w + sep + t` gives `w` followed by the parts of `t` |
| `Text.SplitJoin` | room-rental-app/server/index.ts:18 | splitting undoes joining for parts without the separator (the other direction of the round trip) |
| `Catalogue.FilteredRooms` | room-rental-app/src/App.tsx:72-80 | the rooms shown are no more than the list, and each is in the list and meets every active criterion |
| `Catalogue.FilteredRoomsExact` | room-rental-app/src/App.tsx:72-80 | a room is shown exactly when it is in the list and meets the status, location and cost criteria (both directions) |
| `Catalogue.FilteredRoomsSubsequence` | room-rental-app/src/App.tsx:72-80 | the rooms shown are a subsequence of the list |
| `Catalogue.NoFilterShowsAll` | room-rental-app/src/App.tsx:41-46 | the initial filter (empty status and location, no cost bounds) shows the list unchanged |
| `Catalogue.CostBoundsInclusive` | room-rental-app/src/App.tsx:77-78 | with both bounds set, a room passes the cost criteria exactly when `min <= cost <= max` |
| `Catalogue.LocationIgnoresCase` | room-rental-app/src/App.tsx:74-76 | for all inputs, changing the capitalisation of the query or of the room's location never changes whether the room passes the location criterion |
| `Catalogue.LocationSubstringMatches` | room-rental-app/src/App.tsx:74-76 | a room whose location contains the query as typed passes the location criterion |
| `Catalogue.MyRooms` | room-rental-app/src/App.tsx:231 | every room under "My Rooms" is in the list and was posted under the user's name |
| `Catalogue.MyRoomsExact` | room-rental-app/src/App.tsx:231 | a room is under "My Rooms" exactly when it is in the list and its `postedBy` is the username |
| `Catalogue.ImageUrl` | room-rental-app/src/App.tsx:88 | an image URL is never empty; it is the thumbnail when there is one, else the file URL, else the placeholder URL |
| `Catalogue.Thumbnails` | room-rental-app/src/App.tsx:87-89 | a new room keeps the first `min(n, 5)` uploads in upload order, mapped to their URLs, all non-empty; with no uploads it keeps none |
| `Catalogue.NewRoom` | room-rental-app/src/App.tsx:84-95 | a new room's id is the old length plus one; its images are the `Thumbnails` of the uploads, at most 5; `postedBy` is the logged-in username or "" when nobody is logged in; the other fields come from the form |
| `Catalogue.IdsCountDownDistinct` | room-rental-app/src/App.tsx:85 | in a list built only by posting, ids are positive and pairwise distinct |
| `Catalogue.PostShowsInMyRooms` | room-rental-app/src/App.tsx:94-96 | posting a room as a user puts it at the head of that user's "My Rooms" and leaves the rest of that list as it was |
| `Catalogue.LoginFindsTheNamedAccount` | room-rental-app/src/App.tsx:119 | with unique usernames, login picks the named account exactly when its password matches, and otherwise finds nothing |
| `Catalogue.RoomRentalApp.constructor` | room-rental-app/src/App.tsx:31-40 | the component starts with nobody logged in, no users and the empty room list, and its invariants hold |
| `Catalogue.RoomRentalApp.AddRoom` | room-rental-app/src/App.tsx:83-99 | posting adds exactly one room at index 0 with `id == old length + 1` and keeps the older rooms after it, unchanged and in order; ids keep counting down |
| `Catalogue.RoomRentalApp.Register` | room-rental-app/src/App.tsx:102-116 | a taken username leaves users and the logged-in user unchanged; otherwise exactly one user is appended and logged in; usernames stay unique |
| `Catalogue.RoomRentalApp.Login` | room-rental-app/src/App.tsx:118-127 | login succeeds exactly when some account matches both username and password, and then logs in the first such account; on failure the logged-in user is unchanged |
| `Catalogue.RoomRentalApp.Logout` | room-rental-app/src/App.tsx:129-132 | nobody is logged in afterwards |
| `Access.JwtSecret` | room-rental-app/server/index.ts:21 | the secret is never empty; a non-empty `JWT_SECRET` is used as it is, and an unset or empty one gives the fixed key "dev" |
| `Access.BearerToken` | room-rental-app/server/index.ts:18-19 | an extracted token is non-empty and contains no space |
| `Access.BearerTokenOfHeader` | room-rental-app/server/index.ts:18 | a header of space-separated words yields its second word as the token, whatever follows it |
| `Access.BearerTokenIgnoresScheme` | room-rental-app/server/index.ts:18 | the first word of the header is never checked: any scheme followed by the token yields that token |
| `Access.NoSecondWordNoToken` | room-rental-app/server/index.ts:18-19 | a one-word header carries no token, and neither does a header whose second segment is empty: nothing after the first space, or two spaces in a row followed by anything |
| `Access.Authenticate` | room-rental-app/server/index.ts:17-24 | `auth` accepts only claims that the verifier returned for the extracted token; any rejection is "missing token" or "invalid token" |
| `Access.AuthenticateRejections` | room-rental-app/server/index.ts:18-23 | no token gives "missing token"; a token that fails verification gives "invalid token"; `auth` succeeds exactly when there is a token and it verifies |
| `Access.RequireRole` | room-rental-app/server/index.ts:25-30 | the gate calls `next` exactly when the caller's role is the required role or "admin"; otherwise it answers 403 "forbidden" |
| `Access.AdminPassesEveryGate` | room-rental-app/server/index.ts:27 | a caller whose role is "admin" passes `requireRole(r)` for every `r` |
| `Access.AdminGateAdminsOnly` | room-rental-app/server/index.ts:27 | `requireRole("admin")` passes exactly the admins |
| `Access.Guards` | room-rental-app/server/index.ts:39-80 | every endpoint except the payment webhook runs `auth` first, and any further guard is a role gate (routes at lines 39, 53, 68, 73 and 80) |
| `Access.RunGuards` | room-rental-app/server/index.ts:17-30 | the guards run in order and the first to answer decides: no guards means `next`; every answer is a 401 or 403 "forbidden"; a 401 comes only from an `auth` guard |
| `Access.Admit` | room-rental-app/server/index.ts:39-80 | the payment webhook is always reached; every refusal is a 401 or 403 "forbidden"; only the verify and admin endpoints ever answer 403 |
| `Access.AuthThenRole` | room-rental-app/server/index.ts:53 | `auth` then `requireRole`: 401 with the auth error, or else the role gate's verdict on the verified claims |
| `Access.AdminBookingsAdminsOnly` | room-rental-app/server/index.ts:68 | the admin bookings endpoint is reached exactly by authenticated admins; everyone else gets 401 or 403 |
| `Access.VerifyBookingGate` | room-rental-app/server/index.ts:53 | the verify endpoint answers 401 without valid credentials, admits renters and admins, and answers 403 to every other role |
| `Access.VerifyGateDependsOnlyOnRole` | room-rental-app/server/index.ts:53-56 | two authenticated callers with the same role get the same answer from the verify endpoint's gate |
| `Access.MissingTokenIs401` | room-rental-app/server/index.ts:39-77 | every endpoint mounted behind `auth` answers 401 "missing token" to a request without a token |
| `Access.AdminReachesEverything` | room-rental-app/server/index.ts:25-30 | an authenticated admin reaches every endpoint |
| `Access.HttpRequest.Auth` | room-rental-app/server/index.ts:17-24 | with the key from `JwtSecret`: on success `req.user` holds the verified claims and control passes on; otherwise the answer is 401 and `req.user` is unchanged |
| `Chat.HandshakeAuth` | room-rental-app/server/index.ts:94-102 | a socket is accepted exactly when its token is present, non-empty and verifies; every refusal is "unauthorized" |
| `Chat.HandshakeAgreesWithHttpAuth` | room-rental-app/server/index.ts:94-102 | for a token without spaces (a JSON Web Token never contains one): it is accepted at the socket handshake exactly when the same token sent as `Bearer <token>` passes `auth`, and it yields the same claims |
| `Chat.UserRoom` | room-rental-app/server/index.ts:107 | a user's room name is the prefix `user_` followed by the user id |
| `Chat.ChatBroadcast` | room-rental-app/server/index.ts:111 | the broadcast has the payload's fields plus `from` and `ts`; `from` is the authenticated id, `ts` the server time, and every other field is the client's |
| `Chat.ClientCannotSetSender` | room-rental-app/server/index.ts:111 | a `from` or `ts` supplied by the client has no effect on the broadcast |
| `Chat.BroadcastStripRoundTrip` | room-rental-app/server/index.ts:111 | removing `from` and `ts` from the broadcast gives back the payload without them |
| `Chat.Connection.Handshake` | room-rental-app/server/index.ts:94-107 | with the key from `JwtSecret`: a refused socket gets "unauthorized" and its connection handler does not run: no claims are recorded and no room is joined; an accepted socket records its claims and joins `user_<id>` |
| `Chat.Connection.Join` | room-rental-app/server/index.ts:108 | the socket joins exactly the room the client names |
| `Chat.Connection.OnChatMessage` | room-rental-app/server/index.ts:109-111 | the message goes to the payload's `room`; it carries every client field except `from` and `ts`, which the server sets to the socket's user id and the time |

## Left out

- The booking lifecycle is not modelled: creating, storing, confirming, cancelling and payment reconciliation. The code has no logic for it, only TODO comments.
- Calls to the payment processor are not modelled: `paymentIntents.create`, `paymentIntents.capture` and `webhooks.constructEvent`. They are foreign library calls with no local logic. The webhook endpoint appears only as an endpoint with no guards.
- What the handlers do after their guards is not modelled: the capture call, the `booking:confirmed` emission, the complaint and admin responses. These are I/O against the payment processor and socket.io.
- Express routing, body parsing, `server.listen`, socket.io transport and delivery are not modelled. Delivery is concurrent and best-effort.
- `jwt.verify` is a parameter (`Access.Verifier`). Signature checking is cryptography.
- Loading and saving state in localStorage is not modelled. It is browser I/O, and reloading is the only way a stored list enters the component. So the id rule (`Catalogue.IdsCountDown`) is kept as an invariant of posting from the empty initial list only.
- React rendering, forms, modals, messages and image upload (FileReader) are not modelled. They are user interface. The model takes the posting form's values as `Catalogue.RoomForm`.
- `Text.Lower`: models `toLowerCase` on ASCII letters only. Full Unicode case mapping is not modelled.
- `Catalogue.Room`: `cost` is an integer. A JavaScript number can be fractional, but floating point is not modelled.
- `Access.Claims`: a decoded token is modelled as a string `id` and an optional string `role`. Other payload shapes are not modelled, such as a numeric id or a missing id.
- `Chat.Json`: payload values are null, booleans, integers and strings. Nested objects and arrays are not modelled. The spread copies every field of the payload, `room` included. Only `from` and `ts` are overwritten, and the server reads `room` to pick the target.
- `Chat.Connection.OnChatMessage`: the payload is always modelled as an object. A client can send no payload, `null`, or a string. With no payload or `null`, reading `payload.room` throws a TypeError in the listener, and nothing is broadcast. With a string, the spread copies its characters under the keys "0", "1", … and `room` is undefined. The model does not capture these cases. It also does not capture a `room` that is an array, which `io.to` broadcasts to every room it lists.
- `Chat.Connection.Join`: the room is always modelled as one string. An array, which `socket.join` joins room by room, is not modelled.
- `Catalogue.RoomRentalApp.AddRoom` and `Catalogue.RoomRentalApp.Register`: each call is modelled as running after the previous one has re-rendered, and as seeing the previous call's writes. In the component, the handlers read `rooms` and `users` from the current render and pass a new array to `setRooms` or `setUsers`, which React applies at the next render. Two posts before a re-render would read the same list: both rooms would get the same id, and the second would replace the first. Two registrations before a re-render would lose the first user. With last-write-wins setters, only one of the two additions survives. The list still has ids counting down and unique usernames, but two calls add one room or user, not two. The model does not capture that lost update. In the model, each call's `|rooms| == |old(rooms)| + 1` and `users == old(users) + [...]` hold only for calls that come one render apart.
- `Chat.HandshakeAuth`: the handshake token is an optional string. Non-string tokens a client could send are not modelled.

=== FILE: access.dfy ===
/**
 * Access control of the HTTP server: bearer-token extraction, the `auth`
 * middleware, the `requireRole` gate and the guards each endpoint is
 * mounted behind. Token verification (a JSON Web Token library call) is a
 * parameter: a function from token and secret to the decoded claims, or
 * None when verification throws.
 */
module Access {
  import opened Optional
  import Text

  /** The decoded token payload the handlers read: the user's id and, if present, their role. */
  datatype Claims = Claims(id: string, role: Option<string>)

  /** `jwt.verify(token, secret)`: the claims, or None where the library throws. */
  type Verifier = (string, string) -> Option<Claims>

  /** What a middleware does: pass control on with `next()`, or answer with an error. */
  datatype Outcome = Next | Respond(status: int, error: string)

  /** The result of checking a credential: the caller's claims, or the error sent back. */
  datatype AuthResult = Authenticated(claims: Claims) | Unauthorized(error: string)

  const AdminRole := "admin"

  /** `process.env.JWT_SECRET || "dev"`: an unset or empty variable falls back to the fixed key "dev". */
  function JwtSecret(env: Option<string>): (secret: string)
    ensures secret != ""
    ensures env.Some? && env.value != "" ==> secret == env.value
    ensures env.None? || env.value == "" ==> secret == "dev"
  {
    if env.Some? && env.value != "" then env.value else "dev"
  }

  /**
   * `req.headers.authorization?.split(" ")[1]`, where an absent or empty
   * second segment counts as no token.
   */
  function BearerToken(authorization: Option<string>): (token: Option<string>)
    ensures token.Some? ==> token.value != "" && ' ' !in token.value
  {
    if authorization.None? then None
    else
      var parts := Text.Split(authorization.value, ' ');
      if |parts| >= 2 && parts[1] != "" then Some(parts[1]) else None
  }

  /**
   * The header the client sends, `"Bearer " + token` (or any other first
   * word), yields that token, whatever follows it after another space.
   */
  lemma BearerTokenOfHeader(scheme: string, token: string, rest: seq<string>)
    requires ' ' !in scheme && ' ' !in token && token != ""
    requires forall k :: 0 <= k < |rest| ==> ' ' !in rest[k]
    ensures BearerToken(Some(Text.Join([scheme, token] + rest, ' '))) == Some(token)
  {
    var parts := [scheme, token] + rest;
    forall k | 0 <= k < |parts|
      ensures ' ' !in parts[k]
    {
      if k >= 2 {
        assert parts[k] == rest[k - 2];
      }
    }
    Text.SplitJoin(parts, ' ');
  }

  /** Only the second word is the token: the first word is never checked. */
  lemma BearerTokenIgnoresScheme(scheme: string, other: string, token: string)
    requires ' ' !in scheme && ' ' !in other && ' ' !in token && token != ""
    ensures BearerToken(Some(scheme + " " + token)) == BearerToken(Some(other + " " + token)) == Some(token)
  {
    BearerTokenOfHeader(scheme, token, []);
    BearerTokenOfHeader(other, token, []);
    assert Text.Join([scheme, token], ' ') == scheme + " " + token;
    assert Text.Join([other, token], ' ') == other + " " + token;
  }

  /**
   * A header of one word, or whose second space-separated segment is empty
   * (nothing after the first space, or two spaces in a row), carries no token.
   */
  lemma NoSecondWordNoToken(scheme: string, rest: string)
    requires ' ' !in scheme
    ensures BearerToken(Some(scheme)) == None
    ensures BearerToken(Some(scheme + " ")) == None
    ensures BearerToken(Some(scheme + " " + " " + rest)) == None
  {
    Text.SplitWord(scheme, ' ');
    Text.SplitAfterWord(scheme, ' ', "");
    assert scheme + [' '] + "" == scheme + " ";
    Text.SplitAfterWord(scheme, ' ', " " + rest);
    Text.SplitAfterWord("", ' ', rest);
    assert "" + [' '] + rest == " " + rest;
    assert scheme + [' '] + (" " + rest) == scheme + " " + " " + rest;
  }

  /** The decision of `auth`: 401 "missing token", 401 "invalid token", or the verified claims. */
  function Authenticate(authorization: Option<string>, secret: string, verify: Verifier): (r: AuthResult)
    ensures r.Authenticated? ==> exists t :: BearerToken(authorization) == Some(t) && verify(t, secret) == Some(r.claims)
    ensures r.Unauthorized? ==> r.error in {"missing token", "invalid token"}
  {
    match BearerToken(authorization)
    case None => Unauthorized("missing token")
    case Some(token) =>
      match verify(token, secret)
      case None => Unauthorized("invalid token")
      case Some(claims) => Authenticated(claims)
  }

  /** `auth` turns away exactly the requests without a token and those whose token fails verification. */
  lemma AuthenticateRejections(authorization: Option<string>, secret: string, verify: Verifier)
    ensures BearerToken(authorization).None? ==> Authenticate(authorization, secret, verify) == Unauthorized("missing token")
    ensures (BearerToken(authorization).Some? && verify(BearerToken(authorization).value, secret).None?)
              ==> Authenticate(authorization, secret, verify) == Unauthorized("invalid token")
    ensures (Authenticate(authorization, secret, verify).Authenticated?) <==>
              (BearerToken(authorization).Some? && verify(BearerToken(authorization).value, secret).Some?)
  {
  }

  /** The condition `requireRole(role)` admits on. */
  predicate HasRole(required: string, user: Option<Claims>)
  {
    user.Some? && (user.value.role == Some(required) || user.value.role == Some(AdminRole))
  }

  /** `requireRole(role)`: `next()` for that role or an admin, 403 "forbidden" for everyone else. */
  function RequireRole(required: string, user: Option<Claims>): (o: Outcome)
    ensures o == Next || o == Respond(403, "forbidden")
    ensures o == Next <==> user.Some? && (user.value.role == Some(required) || user.value.role == Some(AdminRole))
  {
    if HasRole(required, user) then Next else Respond(403, "forbidden")
  }

  /** An admin passes every role gate, whatever role the gate asks for. */
  lemma AdminPassesEveryGate(required: string, c: Claims)
    requires c.role == Some(AdminRole)
    ensures RequireRole(required, Some(c)) == Next
  {
  }

  /** `requireRole("admin")` lets only admins through. */
  lemma AdminGateAdminsOnly(user: Option<Claims>)
    ensures RequireRole(AdminRole, user) == Next <==> user.Some? && user.value.role == Some(AdminRole)
  {
  }

  // ------------------------------------------------------------- endpoints

  /** The endpoints of the server. */
  datatype Endpoint = CreateBooking | VerifyBooking | AdminBookings | Complaints | StripeWebhook

  /** A middleware an endpoint is mounted behind. */
  datatype Guard = Auth | Role(required: string)

  /** The middlewares in front of each handler, in the order Express runs them. */
  function Guards(e: Endpoint): (guards: seq<Guard>)
    ensures e != StripeWebhook <==> |guards| > 0 && guards[0] == Auth
    ensures forall k :: 1 <= k < |guards| ==> guards[k].Role?
  {
    match e
    case CreateBooking => [Auth]
    case VerifyBooking => [Auth, Role("renter")]
    case AdminBookings => [Auth, Role(AdminRole)]
    case Complaints => [Auth]
    case StripeWebhook => []
  }

  /**
   * Runs the guards in order on a request whose `req.user` is `user`: the
   * first one that answers decides, and `Next` means the handler runs.
   */
  function RunGuards(guards: seq<Guard>, authorization: Option<string>, user: Option<Claims>,
                     secret: string, verify: Verifier): (o: Outcome)
    ensures guards == [] ==> o == Next
    ensures o == Next || o.status == 401 || o == Respond(403, "forbidden")
    ensures o.Respond? && o.status == 401 ==> Auth in guards
  {
    if guards == [] then Next
    else match guards[0]
      case Auth =>
        (match Authenticate(authorization, secret, verify)
         case Unauthorized(error) => Respond(401, error)
         case Authenticated(claims) => RunGuards(guards[1..], authorization, Some(claims), secret, verify))
      case Role(required) =>
        (match RequireRole(required, user)
         case Next => RunGuards(guards[1..], authorization, user, secret, verify)
         case Respond(status, error) => Respond(status, error))
  }

  /** Whether a request to `e` with this Authorization header reaches the handler. */
  function Admit(e: Endpoint, authorization: Option<string>, secret: string, verify: Verifier): (o: Outcome)
    ensures e == StripeWebhook ==> o == Next
    ensures o == Next || o.status == 401 || o == Respond(403, "forbidden")
    ensures o.Respond? && o.status == 403 ==> e in {VerifyBooking, AdminBookings}
  {
    RunGuards(Guards(e), authorization, None, secret, verify)
  }

  /** `auth` followed by `requireRole(role)`: 401 from the first, else the second's verdict on the verified claims. */
  lemma AuthThenRole(required: string, authorization: Option<string>, user: Option<Claims>, secret: string, verify: Verifier)
    ensures var a := Authenticate(authorization, secret, verify);
      RunGuards([Auth, Role(required)], authorization, user, secret, verify) ==
        if a.Unauthorized? then Respond(401, a.error) else RequireRole(required, Some(a.claims))
  {
    var guards := [Auth, Role(required)];
    assert guards[1..] == [Role(required)];
    assert [Role(required)][1..] == [];
    match Authenticate(authorization, secret, verify)
    case Unauthorized(error) =>
    case Authenticated(claims) =>
      assert RunGuards(guards, authorization, user, secret, verify)
          == RunGuards([Role(required)], authorization, Some(claims), secret, verify);
  }

  /** The admin bookings listing is reachable by admins only; everyone else gets 401 or 403. */
  lemma AdminBookingsAdminsOnly(authorization: Option<string>, secret: string, verify: Verifier)
    ensures Admit(AdminBookings, authorization, secret, verify) == Next
        <==> Authenticate(authorization, secret, verify).Authenticated? &&
             Authenticate(authorization, secret, verify).claims.role == Some(AdminRole)
    ensures Admit(AdminBookings, authorization, secret, verify) != Next ==>
              Admit(AdminBookings, authorization, secret, verify).status in {401, 403}
  {
    AuthThenRole(AdminRole, authorization, None, secret, verify);
  }

  /**
   * The verify-and-capture endpoint admits an authenticated renter or admin;
   * a caller without a valid token gets 401, any other role 403.
   */
  lemma VerifyBookingGate(authorization: Option<string>, secret: string, verify: Verifier)
    ensures var a := Authenticate(authorization, secret, verify);
      Admit(VerifyBooking, authorization, secret, verify) ==
        if a.Unauthorized? then Respond(401, a.error)
        else if a.claims.role == Some("renter") || a.claims.role == Some(AdminRole) then Next
        else Respond(403, "forbidden")
  {
    AuthThenRole("renter", authorization, None, secret, verify);
  }

  /**
   * The verify endpoint's gate looks at the caller's role only: two callers
   * whose tokens decode to claims with the same role are treated alike,
   * whoever they are (the booking and payment ids are not even inputs).
   */
  lemma VerifyGateDependsOnlyOnRole(h1: Option<string>, h2: Option<string>, secret: string, verify: Verifier)
    requires Authenticate(h1, secret, verify).Authenticated?
    requires Authenticate(h2, secret, verify).Authenticated?
    requires Authenticate(h1, secret, verify).claims.role == Authenticate(h2, secret, verify).claims.role
    ensures Admit(VerifyBooking, h1, secret, verify) == Admit(VerifyBooking, h2, secret, verify)
  {
    VerifyBookingGate(h1, secret, verify);
    VerifyBookingGate(h2, secret, verify);
  }

  /** A request without a usable token never reaches a handler that is mounted behind `auth`. */
  lemma MissingTokenIs401(e: Endpoint, authorization: Option<string>, secret: string, verify: Verifier)
    requires e != StripeWebhook
    requires BearerToken(authorization).None?
    ensures Admit(e, authorization, secret, verify) == Respond(401, "missing token")
  {
  }

  /** An authenticated admin reaches every endpoint. */
  lemma AdminReachesEverything(e: Endpoint, authorization: Option<string>, secret: string, verify: Verifier)
    requires Authenticate(authorization, secret, verify).Authenticated?
    requires Authenticate(authorization, secret, verify).claims.role == Some(AdminRole)
    ensures Admit(e, authorization, secret, verify) == Next
  {
    if e == VerifyBooking {
      AuthThenRole("renter", authorization, None, secret, verify);
    } else if e == AdminBookings {
      AuthThenRole(AdminRole, authorization, None, secret, verify);
    } else if e != StripeWebhook {
      assert Guards(e)[1..] == [];
      var claims := Authenticate(authorization, secret, verify).claims;
      assert Admit(e, authorization, secret, verify) == RunGuards([], authorization, Some(claims), secret, verify);
    }
  }

  /** The request object the `auth` middleware writes the caller's claims into. */
  class HttpRequest {
    const authorization: Option<string>
    var user: Option<Claims>

    constructor (authorization: Option<string>)
      ensures this.authorization == authorization && user == None
    {
      this.authorization := authorization;
      user := None;
    }

    /** `auth`: on success sets `req.user` and calls `next()`; otherwise answers 401 and leaves `req.user` alone. */
    method Auth(env: Option<string>, verify: Verifier) returns (o: Outcome)
      modifies this`user
      ensures o == Next <==> Authenticate(authorization, JwtSecret(env), verify).Authenticated?
      ensures o == Next ==> user == Some(Authenticate(authorization, JwtSecret(env), verify).claims)
      ensures o != Next ==> user == old(user) && o == Respond(401, Authenticate(authorization, JwtSecret(env), verify).error)
    {
      var secret := JwtSecret(env);
      var token := BearerToken(authorization);
      if token.None? {
        return Respond(401, "missing token");
      }
      var claims := verify(token.value, secret);
      if claims.None? {
        return Respond(401, "invalid token");
      }
      user := claims;
      o := Next;
    }
  }
}

=== FILE: catalogue.dfy ===
/**
 * The room catalogue and account store of the client application: the room
 * list, the registered users and the logged-in user, with the search filter,
 * room posting, registration, login and logout that act on them.
 */
module Catalogue {
  import opened Optional
  import opened Sequences
  import Text

  datatype Role = Customer | Renter

  datatype User = User(username: string, password: string, role: Role)

  /** A room listing; `images` holds thumbnail URLs (at most five on a posted room, see NewRoom). */
  datatype Room = Room(
    id: int,
    title: string,
    images: seq<string>,
    location: string,
    cost: int,
    status: string,
    mapUrl: string,
    postedBy: string)

  // ---------------------------------------------------------------- search

  /**
   * The search criteria. An empty `status` or `location` and an absent cost
   * bound switch that criterion off.
   */
  datatype RoomFilter = RoomFilter(status: string, location: string, minCost: Option<int>, maxCost: Option<int>)

  /** The filter the page starts with: every criterion off. */
  const NoFilter := RoomFilter("", "", None, None)

  predicate StatusMatch(f: RoomFilter, room: Room)
  {
    f.status == "" || room.status == f.status
  }

  predicate LocationMatch(f: RoomFilter, room: Room)
  {
    f.location == "" || Text.Contains(Text.Lower(room.location), Text.Lower(f.location))
  }

  predicate CostMatch(f: RoomFilter, room: Room)
  {
    (f.minCost.None? || room.cost >= f.minCost.value) &&
    (f.maxCost.None? || room.cost <= f.maxCost.value)
  }

  /** The predicate the room list is filtered with. */
  predicate Matches(f: RoomFilter, room: Room)
  {
    StatusMatch(f, room) && LocationMatch(f, room) && CostMatch(f, room)
  }

  function Criteria(f: RoomFilter): Room -> bool
  {
    (room: Room) => Matches(f, room)
  }

  /** The rooms shown under "All Rooms". */
  function FilteredRooms(rooms: seq<Room>, f: RoomFilter): (shown: seq<Room>)
    ensures |shown| <= |rooms|
    ensures forall room :: room in shown ==> room in rooms && Matches(f, room)
  {
    Keep(rooms, Criteria(f))
  }

  /** A room is shown exactly when it is in the list and meets every active criterion. */
  lemma FilteredRoomsExact(rooms: seq<Room>, f: RoomFilter, room: Room)
    ensures room in FilteredRooms(rooms, f) <==> room in rooms && Matches(f, room)
  {
    KeepMembership(rooms, Criteria(f), room);
  }

  /** The rooms shown keep the list's order and add nothing to it. */
  lemma FilteredRoomsSubsequence(rooms: seq<Room>, f: RoomFilter)
    ensures IsSubsequence(FilteredRooms(rooms, f), rooms)
  {
    KeepIsSubsequence(rooms, Criteria(f));
  }

  /** With every criterion off the whole list is shown, unchanged. */
  lemma NoFilterShowsAll(rooms: seq<Room>)
    ensures FilteredRooms(rooms, NoFilter) == rooms
  {
    KeepAll(rooms, Criteria(NoFilter));
  }

  /** Both cost bounds are inclusive. */
  lemma CostBoundsInclusive(f: RoomFilter, room: Room, lo: int, hi: int)
    requires f.minCost == Some(lo) && f.maxCost == Some(hi)
    ensures CostMatch(f, room) <==> lo <= room.cost <= hi
  {
  }

  /**
   * The location criterion ignores case: replacing the query and the room's
   * location by strings that differ from them only in capitalisation never
   * changes the outcome.
   */
  lemma LocationIgnoresCase(f: RoomFilter, room: Room, query: string, location: string)
    requires Text.Lower(query) == Text.Lower(f.location)
    requires Text.Lower(location) == Text.Lower(room.location)
    ensures LocationMatch(f.(location := query), room.(location := location)) == LocationMatch(f, room)
  {
    assert |query| == |Text.Lower(query)| == |f.location|;
  }

  /** A room whose location contains the query as typed passes the location criterion. */
  lemma LocationSubstringMatches(f: RoomFilter, room: Room)
    requires Text.Contains(room.location, f.location)
    ensures LocationMatch(f, room)
  {
    Text.ContainsLower(room.location, f.location);
  }

  /** The rooms shown under "My Rooms": those posted under `username`. */
  function MyRooms(rooms: seq<Room>, username: string): (mine: seq<Room>)
    ensures forall room :: room in mine ==> room in rooms && room.postedBy == username
  {
    Keep(rooms, PostedByUser(username))
  }

  function PostedByUser(username: string): Room -> bool
  {
    (room: Room) => room.postedBy == username
  }

  /** A room is in "My Rooms" exactly when it is in the list and carries the user's name. */
  lemma MyRoomsExact(rooms: seq<Room>, username: string, room: Room)
    ensures room in MyRooms(rooms, username) <==> room in rooms && room.postedBy == username
  {
    KeepMembership(rooms, PostedByUser(username), room);
  }

  // --------------------------------------------------------------- posting

  /** One uploaded file of the posting form; an absent or empty URL counts as missing. */
  datatype UploadFile = UploadFile(thumbUrl: Option<string>, url: Option<string>)

  /** The posting form's values; `images` is absent when the user uploaded nothing. */
  datatype RoomForm = RoomForm(
    title: string,
    images: Option<seq<UploadFile>>,
    location: string,
    cost: int,
    status: string,
    mapUrl: string)

  const MaxImages := 5
  const PlaceholderImage := "https://via.placeholder.com/300x200"

  /** JavaScript truthiness of an optional string. */
  predicate Present(s: Option<string>)
  {
    s.Some? && s.value != ""
  }

  /** The URL kept for one uploaded file: its thumbnail, else its URL, else the placeholder. */
  function ImageUrl(file: UploadFile): (url: string)
    ensures url != ""
    ensures Present(file.thumbUrl) ==> url == file.thumbUrl.value
    ensures !Present(file.thumbUrl) && Present(file.url) ==> url == file.url.value
    ensures !Present(file.thumbUrl) && !Present(file.url) ==> url == PlaceholderImage
  {
    if Present(file.thumbUrl) then file.thumbUrl.value
    else if Present(file.url) then file.url.value
    else PlaceholderImage
  }

  /** The image list of a new room: the first five uploads, each mapped to its URL. */
  function Thumbnails(files: Option<seq<UploadFile>>): (images: seq<string>)
    ensures |images| <= MaxImages
    ensures files.None? ==> images == []
    ensures files.Some? ==> |images| == if |files.value| < MaxImages then |files.value| else MaxImages
    ensures files.Some? ==> forall i :: 0 <= i < |images| ==> images[i] == ImageUrl(files.value[i])
    ensures forall i :: 0 <= i < |images| ==> images[i] != ""
  {
    var all := if files.Some? then files.value else [];
    var kept := if |all| < MaxImages then all else all[..MaxImages];
    seq(|kept|, i requires 0 <= i < |kept| => ImageUrl(kept[i]))
  }

  /** The name a new room is posted under: the logged-in user's, or "" when nobody is logged in. */
  function PostedBy(user: Option<User>): string
  {
    if user.Some? then user.value.username else ""
  }

  /** The room `handleAddRoom` creates when the list holds `count` rooms. */
  function NewRoom(form: RoomForm, count: nat, user: Option<User>): (room: Room)
    ensures room.id == count + 1
    ensures |room.images| <= MaxImages
    ensures room.images == Thumbnails(form.images)
    ensures room.postedBy == (if user.Some? then user.value.username else "")
    ensures room.title == form.title && room.location == form.location && room.cost == form.cost
    ensures room.status == form.status && room.mapUrl == form.mapUrl
  {
    Room(count + 1, form.title, Thumbnails(form.images), form.location, form.cost,
         form.status, form.mapUrl, PostedBy(user))
  }

  /**
   * Ids count down from the list's length to 1: the shape a list built only
   * by posting, starting from the empty initial list, has.
   */
  ghost predicate IdsCountDown(rooms: seq<Room>)
  {
    forall i :: 0 <= i < |rooms| ==> rooms[i].id == |rooms| - i
  }

  /** In such a list no two rooms share an id, and every id is positive. */
  lemma IdsCountDownDistinct(rooms: seq<Room>, i: int, j: int)
    requires IdsCountDown(rooms)
    requires 0 <= i < |rooms| && 0 <= j < |rooms| && i != j
    ensures rooms[i].id != rooms[j].id
    ensures rooms[i].id > 0
  {
  }

  /** Posting a room as `username` puts it at the head of that user's "My Rooms". */
  lemma PostShowsInMyRooms(form: RoomForm, rooms: seq<Room>, u: User)
    ensures MyRooms([NewRoom(form, |rooms|, Some(u))] + rooms, u.username)
         == [NewRoom(form, |rooms|, Some(u))] + MyRooms(rooms, u.username)
  {
    KeepPrepend(NewRoom(form, |rooms|, Some(u)), rooms, PostedByUser(u.username));
  }

  // -------------------------------------------------------------- accounts

  /** The registration form's values. */
  datatype Registration = Registration(username: string, password: string, role: Role)

  /** No two registered users share a username. */
  ghost predicate UniqueUsernames(users: seq<User>)
  {
    forall i, j :: 0 <= i < j < |users| ==> users[i].username != users[j].username
  }

  function SameUsername(username: string): User -> bool
  {
    (u: User) => u.username == username
  }

  function SameCredentials(username: string, password: string): User -> bool
  {
    (u: User) => u.username == username && u.password == password
  }

  /**
   * With unique usernames, login looks at one account only: it succeeds
   * exactly when the account with that name has that password.
   */
  lemma LoginFindsTheNamedAccount(users: seq<User>, i: nat, password: string)
    requires UniqueUsernames(users)
    requires i < |users|
    ensures FindFirst(users, SameCredentials(users[i].username, password))
         == if users[i].password == password then Some(i) else None
  {
  }

  /** The state of the application component: rooms, users and the logged-in user. */
  class RoomRentalApp {
    var user: Option<User>
    var users: seq<User>
    var rooms: seq<Room>

    /** The invariants the component keeps as long as it only posts, registers and logs in. */
    ghost predicate Valid()
      reads this
    {
      UniqueUsernames(users) && IdsCountDown(rooms)
    }

    /** Nobody logged in, no users, the empty initial room list. */
    constructor ()
      ensures Valid()
      ensures user == None && users == [] && rooms == []
    {
      user := None;
      users := [];
      rooms := [];
    }

    /** `handleAddRoom`: the new room goes to the front of the list, with id `length + 1`. */
    method AddRoom(form: RoomForm)
      modifies this`rooms
      ensures |rooms| == |old(rooms)| + 1
      ensures rooms[0] == NewRoom(form, |old(rooms)|, user)
      ensures rooms[0].id == |old(rooms)| + 1
      ensures rooms[1..] == old(rooms)
      ensures old(Valid()) ==> Valid()
    {
      var room := NewRoom(form, |rooms|, user);
      rooms := [room] + rooms;
      assert rooms[1..] == old(rooms);
    }

    /**
     * `handleRegister`: refuses a username that is already taken, leaving
     * everything as it was; otherwise appends the new user and logs them in.
     */
    method Register(values: Registration) returns (registered: bool)
      modifies this`users, this`user
      ensures registered <==> forall i :: 0 <= i < |old(users)| ==> old(users)[i].username != values.username
      ensures !registered ==> users == old(users) && user == old(user)
      ensures registered ==> users == old(users) + [User(values.username, values.password, values.role)]
      ensures registered ==> user == Some(User(values.username, values.password, values.role))
      ensures old(Valid()) ==> Valid()
    {
      if FindFirst(users, SameUsername(values.username)).Some? {
        registered := false;
        return;
      }
      var newUser := User(values.username, values.password, values.role);
      users := users + [newUser];
      user := Some(newUser);
      registered := true;
    }

    /**
     * `handleLogin`: logs in the first account whose username and password
     * both match; with no match the logged-in user stays as it was.
     */
    method Login(username: string, password: string) returns (ok: bool)
      modifies this`user
      ensures ok <==> exists i :: 0 <= i < |users| && users[i].username == username && users[i].password == password
      ensures ok ==> exists i :: 0 <= i < |users| && user == Some(users[i]) &&
                       users[i].username == username && users[i].password == password &&
                       forall j :: 0 <= j < i ==> !(users[j].username == username && users[j].password == password)
      ensures !ok ==> user == old(user)
    {
      var matching := SameCredentials(username, password);
      var found := FindFirst(users, matching);
      if found.None? {
        ok := false;
        assert !(exists i :: 0 <= i < |users| && users[i].username == username && users[i].password == password);
        return;
      }
      assert matching(users[found.value]);
      user := Some(users[found.value]);
      ok := true;
      assert exists i :: 0 <= i < |users| && users[i].username == username && users[i].password == password;
    }

    /** `handleLogout`. */
    method Logout()
      modifies this`user
      ensures user == None
    {
      user := None;
    }
  }
}

=== FILE: chat.dfy ===
/**
 * The real-time channel of the server: the handshake middleware that turns
 * away sockets without a verified token, the connection handler that puts a
 * socket in its user's room, joining chat rooms, and the message the server
 * broadcasts for `chat:message`. The clock (`Date.now()`) is a parameter.
 */
module Chat {
  import opened Optional
  import opened Access

  /** The JSON values a chat payload's fields can hold. */
  datatype Json = JNull | JBool(b: bool) | JNum(n: int) | JStr(s: string)

  /** A JSON object: the payload a client sends and the message the server emits. */
  type Payload = map<string, Json>

  /** The fields the server sets itself on every broadcast message. */
  const ServerFields: set<string> := {"from", "ts"}

  /**
   * The handshake check of `io.use`: a missing or empty token, or one that
   * fails verification, is refused with "unauthorized".
   */
  function HandshakeAuth(token: Option<string>, secret: string, verify: Verifier): (r: AuthResult)
    ensures r.Authenticated? <==> token.Some? && token.value != "" && verify(token.value, secret).Some?
    ensures r.Authenticated? ==> r.claims == verify(token.value, secret).value
    ensures r.Unauthorized? ==> r.error == "unauthorized"
  {
    if token.None? || token.value == "" then Unauthorized("unauthorized")
    else match verify(token.value, secret)
      case None => Unauthorized("unauthorized")
      case Some(claims) => Authenticated(claims)
  }

  /**
   * The socket handshake and the HTTP `auth` middleware admit the same
   * callers: a token accepted on a socket is accepted in a "Bearer" header,
   * with the same claims.
   */
  lemma HandshakeAgreesWithHttpAuth(token: string, secret: string, verify: Verifier)
    requires ' ' !in token
    ensures HandshakeAuth(Some(token), secret, verify).Authenticated?
        <==> Authenticate(Some("Bearer " + token), secret, verify).Authenticated?
    ensures HandshakeAuth(Some(token), secret, verify).Authenticated? ==>
              HandshakeAuth(Some(token), secret, verify).claims == Authenticate(Some("Bearer " + token), secret, verify).claims
  {
    if token == "" {
      NoSecondWordNoToken("Bearer", "");
      assert "Bearer" + " " == "Bearer " + token;
    } else {
      BearerTokenIgnoresScheme("Bearer", "Bearer", token);
      assert "Bearer" + " " + token == "Bearer " + token;
    }
  }

  /** The room the connection handler puts a socket in: `user_<id>`. */
  function UserRoom(id: string): (room: string)
    ensures |room| == |id| + 5 && room[..5] == "user_" && room[5..] == id
  {
    "user_" + id
  }

  /** The message broadcast for `chat:message`: the client's payload with `from` and `ts` set by the server. */
  function ChatBroadcast(payload: Payload, from: string, now: int): (msg: Payload)
    ensures msg.Keys == payload.Keys + ServerFields
    ensures msg["from"] == JStr(from) && msg["ts"] == JNum(now)
    ensures forall k :: k in payload && k !in ServerFields ==> msg[k] == payload[k]
  {
    payload["from" := JStr(from)]["ts" := JNum(now)]
  }

  /** Whatever `from` or `ts` a client puts in its payload is discarded: it cannot pose as another sender. */
  lemma ClientCannotSetSender(payload: Payload, spoofed: Json, from: string, now: int)
    ensures ChatBroadcast(payload["from" := spoofed], from, now) == ChatBroadcast(payload, from, now)
    ensures ChatBroadcast(payload["ts" := spoofed], from, now) == ChatBroadcast(payload, from, now)
  {
  }

  /** Removing the server's fields from a broadcast gives back the payload without them. */
  lemma BroadcastStripRoundTrip(payload: Payload, from: string, now: int)
    ensures ChatBroadcast(payload, from, now) - ServerFields == payload - ServerFields
  {
  }

  /** What the server emits for one chat message: the target room (the payload's `room`) and the message. */
  datatype Emission = Emission(room: Option<Json>, message: Payload)

  /** One socket connection, from the handshake on. */
  class Connection {
    const token: Option<string>
    var user: Option<Claims>
    var rooms: set<string>

    /** A socket that has presented `token` in its handshake and is in no room yet. */
    constructor (token: Option<string>)
      ensures this.token == token && user == None && rooms == {}
    {
      this.token := token;
      user := None;
      rooms := {};
    }

    /**
     * The `io.use` middleware followed, on success only, by the connection
     * handler: a refused socket gets "unauthorized" and no handler runs, so it
     * joins no room; an accepted one records its claims and joins its user room.
     */
    method Handshake(env: Option<string>, verify: Verifier) returns (error: Option<string>)
      modifies this`user, this`rooms
      ensures error.None? <==> HandshakeAuth(token, JwtSecret(env), verify).Authenticated?
      ensures error.Some? ==> error == Some("unauthorized") && user == old(user) && rooms == old(rooms)
      ensures error.None? ==> user == Some(HandshakeAuth(token, JwtSecret(env), verify).claims)
      ensures error.None? ==> rooms == old(rooms) + {UserRoom(user.value.id)}
    {
      var secret := JwtSecret(env);
      if token.None? || token.value == "" {
        return Some("unauthorized");
      }
      var claims := verify(token.value, secret);
      if claims.None? {
        return Some("unauthorized");
      }
      user := claims;
      rooms := rooms + {UserRoom(claims.value.id)};
      error := None;
    }

    /** `chat:join`: the socket joins whatever room the client names; nothing is checked. */
    method Join(room: string)
      requires user.Some?
      modifies this`rooms
      ensures rooms == old(rooms) + {room}
    {
      rooms := rooms + {room};
    }

    /** `chat:message`: the emission the server makes for a client payload received at time `now`. */
    method OnChatMessage(payload: Payload, now: int) returns (e: Emission)
      requires user.Some?
      ensures e.room == (if "room" in payload then Some(payload["room"]) else None)
      ensures e.message.Keys == payload.Keys + ServerFields
      ensures e.message["from"] == JStr(user.value.id) && e.message["ts"] == JNum(now)
      ensures forall k :: k in payload && k !in ServerFields ==> e.message[k] == payload[k]
    {
      var room := if "room" in payload then Some(payload["room"]) else None;
      e := Emission(room, ChatBroadcast(payload, user.value.id, now));
    }
  }
}

=== FILE: optional.dfy ===
/** A value that may be absent: TypeScript's `T | undefined` and `T | null`. */
module Optional {

  datatype Option<+T> = None | Some(value: T)
}

=== FILE: sequences.dfy ===
/**
 * The two JavaScript array methods the application's rules are built from:
 * `Array.prototype.filter` (Keep) and `Array.prototype.find`, given here as
 * the index of the element `find` returns (FindFirst).
 */
module Sequences {
  import opened Optional

  /** `a` is obtained from `b` by deleting elements: same order, nothing added. */
  ghost predicate IsSubsequence<T>(a: seq<T>, b: seq<T>)
    decreases |b|
  {
    if a == [] then true
    else if b == [] then false
    else (a[0] == b[0] && IsSubsequence(a[1..], b[1..])) || IsSubsequence(a, b[1..])
  }

  /** `s.filter(p)`: the elements of `s` that satisfy `p`, in their original order. */
  function Keep<T>(s: seq<T>, p: T -> bool): (r: seq<T>)
    ensures |r| <= |s|
    ensures forall x :: x in r ==> x in s && p(x)
  {
    if s == [] then []
    else if p(s[0]) then [s[0]] + Keep(s[1..], p)
    else Keep(s[1..], p)
  }

  /** Every element of `s` that satisfies `p` survives the filter. */
  lemma {:induction false} KeepComplete<T>(s: seq<T>, p: T -> bool, x: T)
    requires x in s && p(x)
    ensures x in Keep(s, p)
  {
    if s[0] != x {
      KeepComplete(s[1..], p, x);
    }
  }

  /** Membership in the filtered sequence, both directions. */
  lemma KeepMembership<T>(s: seq<T>, p: T -> bool, x: T)
    ensures x in Keep(s, p) <==> x in s && p(x)
  {
    if x in s && p(x) {
      KeepComplete(s, p, x);
    }
  }

  /** The filter keeps relative order and adds nothing. */
  lemma {:induction false} KeepIsSubsequence<T>(s: seq<T>, p: T -> bool)
    ensures IsSubsequence(Keep(s, p), s)
  {
    if s != [] {
      KeepIsSubsequence(s[1..], p);
      var rest := Keep(s[1..], p);
      if p(s[0]) {
        assert Keep(s, p) == [s[0]] + rest;
        assert ([s[0]] + rest)[1..] == rest;
      } else {
        assert Keep(s, p) == rest;
        if rest != [] {
          assert IsSubsequence(rest, s[1..]);
        }
      }
    }
  }

  /** A filter that every element passes returns the sequence unchanged. */
  lemma {:induction false} KeepAll<T>(s: seq<T>, p: T -> bool)
    requires forall i :: 0 <= i < |s| ==> p(s[i])
    ensures Keep(s, p) == s
  {
    if s != [] {
      KeepAll(s[1..], p);
      assert [s[0]] + s[1..] == s;
    }
  }

  /** Filtering a sequence with one element put in front. */
  lemma KeepPrepend<T>(x: T, s: seq<T>, p: T -> bool)
    ensures Keep([x] + s, p) == (if p(x) then [x] else []) + Keep(s, p)
  {
    assert ([x] + s)[0] == x;
    assert ([x] + s)[1..] == s;
  }

  /** The index of the first element of `s` satisfying `p` (the one `s.find(p)` returns), if any. */
  function FindFirst<T>(s: seq<T>, p: T -> bool): (r: Option<nat>)
    ensures r.Some? ==> r.value < |s| && p(s[r.value])
    ensures r.Some? ==> forall j :: 0 <= j < r.value ==> !p(s[j])
    ensures r.None? <==> forall j :: 0 <= j < |s| ==> !p(s[j])
  {
    if s == [] then None
    else if p(s[0]) then Some(0)
    else match FindFirst(s[1..], p)
      case None => None
      case Some(k) => Some(k + 1)
  }
}

=== FILE: text.dfy ===
/**
 * The string operations the application relies on: `toLowerCase` (on ASCII
 * letters), `includes` (substring containment) and `split` on a single
 * separator character, with `join` as its inverse.
 */
module Text {

  /** Lower-cases an ASCII capital letter; every other character is left as it is. */
  function LowerChar(c: char): (d: char)
    ensures !('A' <= d <= 'Z')
    ensures c == d || ('A' <= c <= 'Z' && d as int == c as int + 32)
  {
    if 'A' <= c <= 'Z' then (c as int + 32) as char else c
  }

  /** `s.toLowerCase()`, restricted to ASCII case mapping. */
  function Lower(s: string): (r: string)
    ensures |r| == |s|
    ensures forall i :: 0 <= i < |r| ==> !('A' <= r[i] <= 'Z')
  {
    seq(|s|, i requires 0 <= i < |s| => LowerChar(s[i]))
  }

  /** Lower-casing commutes with taking a slice. */
  lemma LowerSlice(s: string, i: nat, j: nat)
    requires i <= j <= |s|
    ensures Lower(s)[i..j] == Lower(s[i..j])
  {
  }

  /** `sub` occurs in `s` starting at position `i`. */
  ghost predicate OccursAt(s: string, sub: string, i: nat)
  {
    i + |sub| <= |s| && s[i..i + |sub|] == sub
  }

  /** `s.includes(sub)`: `sub` occurs in `s` as a contiguous block. */
  function Contains(s: string, sub: string): (b: bool)
    decreases |s|
    ensures b <==> exists i: nat :: OccursAt(s, sub, i)
  {
    if sub <= s then
      assert OccursAt(s, sub, 0);
      true
    else if s == [] then
      assert forall i: nat :: !OccursAt(s, sub, i);
      false
    else
      var b' := Contains(s[1..], sub);
      assert b' ==> OccursAt(s, sub, 0) || exists i: nat :: OccursAt(s, sub, i) by {
        if b' {
          var k: nat :| OccursAt(s[1..], sub, k);
          assert s[k + 1..k + 1 + |sub|] == s[1..][k..k + |sub|];
          assert OccursAt(s, sub, k + 1);
        }
      }
      assert (exists i: nat :: OccursAt(s, sub, i)) ==> b' by {
        if exists i: nat :: OccursAt(s, sub, i) {
          var i: nat :| OccursAt(s, sub, i);
          assert i != 0;
          assert s[1..][i - 1..i - 1 + |sub|] == s[i..i + |sub|];
          assert OccursAt(s[1..], sub, i - 1);
        }
      }
      b'
  }

  /** Containment survives lower-casing both sides: `includes` after `toLowerCase` is case-insensitive. */
  lemma ContainsLower(s: string, sub: string)
    requires Contains(s, sub)
    ensures Contains(Lower(s), Lower(sub))
  {
    var i: nat :| OccursAt(s, sub, i);
    LowerSlice(s, i, i + |sub|);
    assert OccursAt(Lower(s), Lower(sub), i);
  }

  /** `parts.join(sep)`. */
  function Join(parts: seq<string>, sep: char): string
  {
    if parts == [] then ""
    else if |parts| == 1 then parts[0]
    else parts[0] + [sep] + Join(parts[1..], sep)
  }

  /** `s.split(sep)`: the maximal runs of characters between occurrences of `sep`; "" gives [""]. */
  function Split(s: string, sep: char): (parts: seq<string>)
    ensures |parts| >= 1
    ensures forall k :: 0 <= k < |parts| ==> sep !in parts[k]
    ensures Join(parts, sep) == s
  {
    if s == [] then [""]
    else
      var rest := Split(s[1..], sep);
      if s[0] == sep then
        assert ([""] + rest)[1..] == rest;
        assert s == [sep] + s[1..];
        [""] + rest
      else
        var parts := [[s[0]] + rest[0]] + rest[1..];
        assert parts[1..] == rest[1..];
        assert s == [s[0]] + s[1..];
        assert forall k :: 1 <= k < |parts| ==> parts[k] == rest[k];
        parts
  }

  /** A separator-free string splits into itself. */
  lemma {:induction false} SplitWord(w: string, sep: char)
    requires sep !in w
    ensures Split(w, sep) == [w]
  {
    if w != [] {
      SplitWord(w[1..], sep);
      assert [w[0]] + w[1..] == w;
    }
  }

  /** Splitting `w + sep + t` for a separator-free `w` yields `w` followed by the parts of `t`. */
  lemma {:induction false} SplitAfterWord(w: string, sep: char, t: string)
    requires sep !in w
    ensures Split(w + [sep] + t, sep) == [w] + Split(t, sep)
  {
    if w == [] {
      assert w + [sep] + t == [sep] + t;
      assert ([sep] + t)[1..] == t;
    } else {
      SplitAfterWord(w[1..], sep, t);
      assert (w + [sep] + t)[1..] == w[1..] + [sep] + t;
      assert [w[0]] + w[1..] == w;
    }
  }

  /** Splitting undoes joining, for parts free of the separator. */
  lemma {:induction false} SplitJoin(parts: seq<string>, sep: char)
    requires |parts| >= 1
    requires forall k :: 0 <= k < |parts| ==> sep !in parts[k]
    ensures Split(Join(parts, sep), sep) == parts
  {
    if |parts| == 1 {
      SplitWord(parts[0], sep);
    } else {
      SplitJoin(parts[1..], sep);
      SplitAfterWord(parts[0], sep, Join(parts[1..], sep));
      assert [parts[0]] + parts[1..] == parts;
    }
  }
}
